=== FILE: README.md ===
# Offline receipt upload queue — a Dafny model

This project models the offline upload queue of the receipt-scanning app (`hooks/useOfflineQueue.ts`).
When the phone is offline, a captured receipt's image file location (`uri`) is appended, with a
timestamp, to a queue that is persisted as one JSON record under a fixed key. Each time the network
listener reports a connection, the queue is drained. The drain reads a snapshot of the record and
uploads the items in order. It stops at the first failure. It then writes back the snapshot minus
every item whose `uri` was uploaded, and it writes only when at least one upload succeeded.
A third operation reports the queue's length.

The model is functional:

- `QueueItems` holds the `QueueItem` record, the `Uris` projection, the distinct-uri predicate and
  an order-preserving subsequence relation.
- `Removal` holds the filter by uri value and its lemmas.
- `OfflineQueue` holds the persisted record, `Store = Missing | Corrupt | Saved(items)`, and the
  pure operations on it. `Enqueue` models `addToQueue` and `Size` models `getQueueSize`. `Drain`
  models `processOfflineQueue` and is built from `Pending` (the snapshot read), `WalkQueue` (the upload loop) and
  `Commit` (the final write).
- `DrainProperties` holds the all-inputs lemmas about one drain.
- `DrainLoop` holds the same drain as methods with a loop and `break`, proved equal to the
  functional one.
- `Connectivity` holds the network listener, sequential runs of operations, and the lemmas that
  exhibit what the queue does not guarantee.

Foreign I/O becomes parameters:

- The key-value store becomes a `Store` value.
- The outcome of each upload attempt (file read plus remote call) comes from an oracle `outcomes: seq<bool>`.
  Attempt `k` of a drain succeeds when `k < |outcomes|` and `outcomes[k]` holds. An attempt past the
  end of the oracle fails.
- Whether a store write goes through is a `writeOk: bool` parameter. A failed write is caught and
  logged, so the record keeps its previous value.
- `Date.now()` is an integer parameter `now`.

The code does not re-read the record before its final write. It runs a drain on every connected
event, has no re-entrancy guard, and removes items by uri value. The model follows the code.
`AppendDuringDrainIsLost`, `RepeatedConnectedEventsDrainAgain` and
`DrainDropsNotUploadedDuplicate` state the resulting behaviour. Because removal is by uri value,
a later item that shares an uploaded uri is also removed. With distinct uris,
`DrainDistinctLeavesSuffix` proves the record keeps exactly the suffix from the first failing item.

## Model

| member | source | states |
|---|---|---|
| OfflineQueue.Enqueue | hooks/useOfflineQueue.ts:27-37 | A readable record gains exactly one item at the end, carrying the given uri and timestamp, with the old items unchanged and in order. A missing record counts as the empty queue. A corrupt record or a failed write leaves the record unchanged. |
| OfflineQueue.Size | hooks/useOfflineQueue.ts:79-90 | The length of a stored queue, and 0 for a missing record or one that cannot be parsed. |
| OfflineQueue.EnqueueGrowsSize | hooks/useOfflineQueue.ts:29-33 | A successful append raises the reported size by exactly one. On a missing record it yields a one-element queue. |
| OfflineQueue.WalkQueue | hooks/useOfflineQueue.ts:49-65 | The attempted items are a prefix of the snapshot. The uploaded uris are the uris of the items before the first failing attempt, and each of those attempts succeeded. The failing item is attempted and nothing after it is. |
| OfflineQueue.Commit | hooks/useOfflineQueue.ts:67-73 | With no upload, or a failed write, the record is unchanged. Otherwise the record becomes an order-preserving subsequence of the snapshot that holds a snapshot item exactly when its uri was not uploaded. Each kept item keeps its number of occurrences in the snapshot. |
| OfflineQueue.Drain | hooks/useOfflineQueue.ts:39-77 | A missing, unparsable or empty queue gets no attempt and no write. Attempts follow queue order up to and including the first failure. A write is issued iff something was uploaded. Without a write the record is unchanged. With one it is the snapshot filtered by the uploaded uris. |
| Removal.Remaining | hooks/useOfflineQueue.ts:69-71 | Every surviving item is from the queue and its uri was not processed. Every queue item whose uri was not processed survives. |
| Removal.RemainingCounts | hooks/useOfflineQueue.ts:69-71 | The filter keeps every occurrence: an item occurs in the result exactly as often as in the queue when its uri was not processed, and not at all otherwise. |
| Removal.RemainingIsSubsequence | hooks/useOfflineQueue.ts:69-71 | The filter keeps the surviving items in their original relative order. |
| Removal.RemainingDistinctPrefix | hooks/useOfflineQueue.ts:69-71 | With distinct uris, removing the uris of the first k items leaves exactly the items from position k on. |
| DrainProperties.DrainAllSucceed | hooks/useOfflineQueue.ts:51-72 | When every attempt succeeds, all items are attempted in queue order and the record ends holding the empty queue. |
| DrainProperties.DrainDistinctLeavesSuffix | hooks/useOfflineQueue.ts:51-72 | With distinct uris and a working store, the record after a drain is the snapshot's suffix from the first failing item on. If nothing was uploaded, the record is unchanged. |
| DrainProperties.DrainDropsNotUploadedDuplicate | hooks/useOfflineQueue.ts:69-71 | An item that was not uploaded in this drain is still removed when an earlier uploaded item shares its uri. |
| DrainLoop.ProcessQueue | hooks/useOfflineQueue.ts:49-65 | The for-of loop with break uploads the uris of the items before the first failure, in order, and attempts exactly one more item, the failing one, when it stops early. |
| DrainLoop.ProcessOfflineQueue | hooks/useOfflineQueue.ts:39-77 | The drain written with its early returns, loop and conditional write has the same effect as `Drain` on every record and oracle, so the loop agrees with `WalkQueue`. |
| Connectivity.OnNetworkEvent | hooks/useOfflineQueue.ts:17-25 | An event reporting no connection, or an unknown state, attempts nothing, uploads nothing, issues no write and leaves the record unchanged. Every event reporting a connection runs a full drain. |
| Connectivity.RepeatedConnectedEventsDrainAgain | hooks/useOfflineQueue.ts:18-21 | Two connected events with no disconnection between them both drain. After a failed head upload, the second event attempts the same head again. |
| Connectivity.AppendsQueueInOrder | hooks/useOfflineQueue.ts:27-33 | A run of successful appends on a readable record leaves the old items followed by the new ones in append order. |
| Connectivity.AppendsThenDrainInOrder | hooks/useOfflineQueue.ts:27-72 | Items appended to a readable store and then drained with every upload succeeding are attempted after the items already queued, in exactly append order, and the queue ends empty. |
| Connectivity.CorruptRecordIsPermanent | hooks/useOfflineQueue.ts:27-77 | Once the stored text cannot be parsed, no sequence of appends and network events changes it. |
| Connectivity.DrainAroundAppend | hooks/useOfflineQueue.ts:39-73 | Suppose an append lands between the drain's snapshot and its final write. If the drain writes, the result is the same as if the append never happened. Otherwise the append survives. |
| Connectivity.AppendDuringDrainIsLost | hooks/useOfflineQueue.ts:69-72 | An append that lands during a drain that uploads something is first recorded and then overwritten by the drain's write. |

## Left out

- AsyncStorage, the base64 file read, the tRPC mutation and the NetInfo subscription are foreign asynchronous I/O. They are abstracted as the `Store` value, the outcome oracle and the `writeOk` flag.
- A rejected `AsyncStorage.getItem` is not modelled. It is a failure of one call, after which the next call reads again, so it is not a state of the record. Every operation here reads successfully. `Corrupt` stands only for stored text that cannot be parsed.
- JSON serialisation is assumed to round-trip well-formed queues. A record that parses to a non-array JSON value (for example `null` or an object) is not modelled separately. Such a record makes `getQueueSize` return `undefined` for an object, while `Corrupt` reports 0.
- Concurrency is left out: overlapping drains from repeated events, and appends interleaved with a drain's loop. The code has no guard, so there is no property to prove. `DrainAroundAppend` covers the single interleaving in which one append completes between the snapshot and the write.
- Listener subscription and unsubscription on mount and unmount (`useEffect`) are React lifecycle code and are not modelled.
- The capture screen's online/offline choice calls `addToQueue` only when `NetInfo.fetch()` reports no connection. It is UI code and is not modelled.
- The tRPC client and provider wiring, HTTP headers, and the build configuration are not modelled.
- Logging is not modelled.

=== FILE: connectivity.dfy ===
/** The network listener that triggers drains, sequential runs of queue operations, and
    the behaviours the queue does NOT guarantee, stated as lemmas that exhibit them. */
module Connectivity {
  import opened QueueItems
  import opened Removal
  import opened OfflineQueue
  import opened DrainProperties

  /** The listener body: every event that reports a connection runs a drain, with no memory
      of the previous state and no guard against a drain already in progress. A connection state
      the platform reports as unknown reads as `false`. */
  function OnNetworkEvent(s: Store, isConnected: bool, outcomes: seq<bool>, writeOk: bool): (r: DrainResult)
    ensures !isConnected ==> r.attempted == [] && r.uploaded == [] && !r.writeIssued && r.store == s
    ensures isConnected ==> r == Drain(s, outcomes, writeOk)
  {
    if isConnected then Drain(s, outcomes, writeOk) else DrainResult([], [], false, s)
  }

  /** Two "connected" events in a row, with no disconnection between them, both drain:
      when the first drain's head upload fails, the second one attempts the same head again. */
  lemma RepeatedConnectedEventsDrainAgain(s: Store, o1: seq<bool>, o2: seq<bool>, w1: bool, w2: bool)
    requires |Pending(s)| > 0
    requires !Succeeds(o1, 0)
    ensures OnNetworkEvent(s, true, o1, w1).store == s
    ensures OnNetworkEvent(s, true, o1, w1).attempted == [Pending(s)[0].uri]
    ensures |OnNetworkEvent(s, true, o2, w2).attempted| > 0
    ensures OnNetworkEvent(s, true, o2, w2).attempted[0] == Pending(s)[0].uri
  {
  }

  // ---------------------------------------------------------------- sequential runs

  /** One queue operation as seen by the store: an append, or a connectivity event. */
  datatype Op =
    | Append(uri: Uri, now: int, writeOk: bool)
    | NetworkEvent(isConnected: bool, outcomes: seq<bool>, writeOk: bool)

  /** The record after one operation. */
  function Step(s: Store, op: Op): Store {
    match op
    case Append(uri, now, ok) => Enqueue(s, uri, now, ok)
    case NetworkEvent(c, o, ok) => OnNetworkEvent(s, c, o, ok).store
  }

  /** The record after running `ops` one after another, each finishing before the next starts. */
  function Run(s: Store, ops: seq<Op>): Store
    decreases |ops|
  {
    if |ops| == 0 then s else Run(Step(s, ops[0]), ops[1..])
  }

  /** Every operation of the run is an append. */
  predicate AllAppends(ops: seq<Op>) {
    forall i :: 0 <= i < |ops| ==> ops[i].Append?
  }

  /** Every operation of the run gets its store write through. */
  predicate AllWritesSucceed(ops: seq<Op>) {
    forall i :: 0 <= i < |ops| ==> ops[i].writeOk
  }

  /** The items a run of appends adds, in order. */
  function AppendedItems(ops: seq<Op>): (items: seq<QueueItem>)
    requires AllAppends(ops)
    ensures |items| == |ops|
    ensures forall i :: 0 <= i < |ops| ==> items[i] == QueueItem(ops[i].uri, ops[i].now)
  {
    if |ops| == 0 then []
    else
      assert AllAppends(ops[1..]);
      [QueueItem(ops[0].uri, ops[0].now)] + AppendedItems(ops[1..])
  }

  /** A run that starts with a successful append on a readable record continues from the
      record with that append's item at the end. */
  lemma RunAppendStep(s: Store, ops: seq<Op>)
    requires !s.Corrupt? && |ops| > 0 && ops[0].Append? && ops[0].writeOk
    ensures Run(s, ops) == Run(Saved(Pending(s) + [QueueItem(ops[0].uri, ops[0].now)]), ops[1..])
  {
  }

  /** Moving one item across the boundary between the old queue and the appended items. */
  lemma ConcatShift(p: seq<QueueItem>, x: QueueItem, rest: seq<QueueItem>)
    ensures (p + [x]) + rest == p + ([x] + rest)
  {
  }

  /** A readable record that goes through successful appends holds its old items followed by
      the new ones in the order they were appended. */
  lemma {:induction false} AppendsQueueInOrder(s: Store, ops: seq<Op>)
    requires !s.Corrupt?
    requires AllAppends(ops) && AllWritesSucceed(ops)
    ensures Run(s, ops) == if |ops| == 0 then s else Saved(Pending(s) + AppendedItems(ops))
    decreases |ops|
  {
    if |ops| > 0 {
      var item := QueueItem(ops[0].uri, ops[0].now);
      var next := Saved(Pending(s) + [item]);
      RunAppendStep(s, ops);
      assert AllAppends(ops[1..]) && AllWritesSucceed(ops[1..]);
      AppendsQueueInOrder(next, ops[1..]);
      ConcatShift(Pending(s), item, AppendedItems(ops[1..]));
    }
  }

  /** Items appended offline to a readable store, then drained with every upload succeeding,
      are attempted after the items already queued and in exactly the order they were appended,
      and the queue ends empty. */
  lemma AppendsThenDrainInOrder(s: Store, ops: seq<Op>, outcomes: seq<bool>)
    requires !s.Corrupt?
    requires |ops| > 0
    requires AllAppends(ops) && AllWritesSucceed(ops)
    requires forall i :: 0 <= i < |Pending(s)| + |ops| ==> Succeeds(outcomes, i)
    ensures Drain(Run(s, ops), outcomes, true).attempted == Uris(Pending(s) + AppendedItems(ops))
    ensures Drain(Run(s, ops), outcomes, true).store == Saved([])
  {
    var q := Pending(s) + AppendedItems(ops);
    AppendsQueueInOrder(s, ops);
    assert Run(s, ops) == Saved(q);
    assert |q| == |Pending(s)| + |ops|;
    DrainAllSucceed(Saved(q), outcomes);
  }

  /** Once the stored text cannot be parsed no operation ever changes it: appends are dropped and
      drains upload nothing. */
  lemma {:induction false} CorruptRecordIsPermanent(ops: seq<Op>)
    ensures Run(Corrupt, ops) == Corrupt
    decreases |ops|
  {
    if |ops| > 0 {
      CorruptRecordIsPermanent(ops[1..]);
    }
  }

  // ---------------------------------------------------------------- interleaving

  /** A drain during which one append completes between the drain's snapshot read and its
      final write; the final write filters the snapshot and never re-reads the record. */
  function DrainAroundAppend(s: Store, outcomes: seq<bool>, writeOk: bool, uri: Uri, now: int, appendOk: bool): (s': Store)
    ensures |Drain(s, outcomes, writeOk).uploaded| == 0 || !writeOk ==> s' == Enqueue(s, uri, now, appendOk)
    ensures |Drain(s, outcomes, writeOk).uploaded| > 0 && writeOk ==> s' == Drain(s, outcomes, writeOk).store
  {
    var q := Pending(s);
    var w := WalkQueue(q, outcomes);
    Commit(q, w.processed, writeOk, Enqueue(s, uri, now, appendOk))
  }

  /** The queue does not merge on write: an append that lands while a drain is uploading is
      recorded, then overwritten by the drain's final write and lost. */
  lemma AppendDuringDrainIsLost(s: Store, outcomes: seq<bool>, uri: Uri, now: int)
    requires s.Saved?
    requires |Drain(s, outcomes, true).uploaded| > 0
    requires QueueItem(uri, now) !in s.items
    ensures QueueItem(uri, now) in Enqueue(s, uri, now, true).items
    ensures DrainAroundAppend(s, outcomes, true, uri, now, true).Saved?
    ensures QueueItem(uri, now) !in DrainAroundAppend(s, outcomes, true, uri, now, true).items
  {
  }
}

=== FILE: drain_loop.dfy ===
/** The upload loop written as `processOfflineQueue` writes it: a for-of over the snapshot that
    breaks on the first failure. */
module DrainLoop {
  import opened QueueItems
  import opened Removal
  import opened OfflineQueue

  /** Walk the snapshot, attempting one upload per item, and return the uris uploaded
      and the uris attempted, both in queue order. */
  method ProcessQueue(queue: seq<QueueItem>, outcomes: seq<bool>) returns (processed: seq<Uri>, attempted: seq<Uri>)
    ensures |processed| <= |queue|
    ensures processed == Uris(queue[..|processed|])
    ensures forall i :: 0 <= i < |processed| ==> Succeeds(outcomes, i)
    ensures |processed| < |queue| ==> !Succeeds(outcomes, |processed|)
    ensures |attempted| == if |processed| < |queue| then |processed| + 1 else |queue|
    ensures attempted == Uris(queue[..|attempted|])
  {
    processed := [];
    attempted := [];
    var k := 0;
    while k < |queue|
      invariant 0 <= k <= |queue|
      invariant processed == Uris(queue[..k])
      invariant attempted == processed
      invariant forall i :: 0 <= i < k ==> Succeeds(outcomes, i)
    {
      var item := queue[k];
      attempted := attempted + [item.uri];
      if !Succeeds(outcomes, k) {
        // attempt k failed: leave the loop
        break;
      }
      processed := processed + [item.uri];
      k := k + 1;
      assert queue[..k] == queue[..k - 1] + [item];
    }
  }

  /** The whole drain as `processOfflineQueue` writes it: two early returns, the loop, and a final
      write issued only when something was uploaded. */
  method ProcessOfflineQueue(s: Store, outcomes: seq<bool>, writeOk: bool) returns (r: DrainResult)
    ensures r == Drain(s, outcomes, writeOk)
  {
    if !s.Saved? {
      // no record, or one that cannot be parsed: nothing to do
      return DrainResult([], [], false, s);
    }
    var queue := s.items;
    if |queue| == 0 {
      return DrainResult([], [], false, s);
    }
    var processed, attempted := ProcessQueue(queue, outcomes);
    WalkMatchesLoop(queue, outcomes, |processed|);
    var store := s;
    if |processed| > 0 && writeOk {
      store := Saved(Remaining(queue, processed));
    }
    r := DrainResult(attempted, processed, |processed| > 0, store);
  }

  /** The recursive walk uploads exactly the first `k` items when attempts 0..k-1 succeed
      and attempt `k` (if there is one) fails. */
  lemma WalkMatchesLoop(queue: seq<QueueItem>, outcomes: seq<bool>, k: nat)
    requires k <= |queue|
    requires forall i :: 0 <= i < k ==> Succeeds(outcomes, i)
    requires k < |queue| ==> !Succeeds(outcomes, k)
    ensures WalkQueue(queue, outcomes).processed == Uris(queue[..k])
    ensures WalkQueue(queue, outcomes).attempted == queue[..if k < |queue| then k + 1 else k]
  {
  }
}

=== FILE: drain_properties.dfy ===
/** What one drain does to the persisted queue, stated over all stores and outcome oracles. */
module DrainProperties {
  import opened QueueItems
  import opened Removal
  import opened OfflineQueue

  /** When every attempt succeeds, every item's upload is attempted in queue order
      and the record ends up holding the empty queue. */
  lemma DrainAllSucceed(s: Store, outcomes: seq<bool>)
    requires |Pending(s)| > 0
    requires forall i :: 0 <= i < |Pending(s)| ==> Succeeds(outcomes, i)
    ensures Drain(s, outcomes, true).attempted == Uris(Pending(s))
    ensures Drain(s, outcomes, true).store == Saved([])
  {
    var r := Drain(s, outcomes, true);
    assert |r.uploaded| == |Pending(s)|;
    RemainingAllProcessed(Pending(s), r.uploaded);
  }

  /** With distinct uris, a drain that uploads `k` items leaves exactly the snapshot's
      suffix from the first failing item on (empty when all succeeded); one that uploads
      nothing leaves the record as it was. */
  lemma DrainDistinctLeavesSuffix(s: Store, outcomes: seq<bool>)
    requires DistinctUris(Pending(s))
    ensures var r := Drain(s, outcomes, true);
      r.store == if |r.uploaded| > 0 then Saved(Pending(s)[|r.uploaded|..]) else s
  {
    var r := Drain(s, outcomes, true);
    var q := Pending(s);
    var k := |r.uploaded|;
    assert r.uploaded == Uris(q[..k]);
    RemainingDistinctPrefix(q, k);
  }

  /** Removal is by uri value: an item never uploaded in this drain (not even attempted, or the
      failing one) is still dropped when an earlier uploaded item carries the same uri. */
  lemma DrainDropsNotUploadedDuplicate(s: Store, outcomes: seq<bool>, i: nat, j: nat)
    requires j < |Pending(s)|
    requires i < |Drain(s, outcomes, true).uploaded| <= j
    requires Pending(s)[i].uri == Pending(s)[j].uri
    ensures Drain(s, outcomes, true).store.Saved?
    ensures Pending(s)[j] !in Drain(s, outcomes, true).store.items
  {
  }
}

=== FILE: offline_queue.dfy ===
/** The persisted offline upload queue and its three operations: append, drain and size.
    The key-value store, the file read and the remote upload are abstracted: the stored
    record is a `Store` value, every upload attempt's outcome comes from an oracle
    sequence, and every write's success is a boolean parameter. */
module OfflineQueue {
  import opened QueueItems
  import opened Removal

  /** The single persisted record under the queue's fixed key.
      `Missing`: no record, or an empty text (both falsy when read).
      `Corrupt`: a stored text that cannot be parsed back as a queue (the parse throws).
      `Saved`: a well-formed serialized queue. */
  datatype Store = Missing | Corrupt | Saved(items: seq<QueueItem>)

  /** The queue an operation works on after reading the store; for a drain, the snapshot it walks.
      Missing, unparsable and empty records all give the empty queue, on which a drain returns early. */
  function Pending(s: Store): seq<QueueItem> {
    if s.Saved? then s.items else []
  }

  // ---------------------------------------------------------------- append

  /** Append one item for `uri`, stamped `now`, and write the queue back.
      A corrupt record makes the parse throw before anything is written;
      a failed write is swallowed and leaves the previous record. */
  function Enqueue(s: Store, uri: Uri, now: int, writeOk: bool): (s': Store)
    ensures s.Corrupt? || !writeOk ==> s' == s
    ensures !s.Corrupt? && writeOk ==>
      && s'.Saved?
      && |s'.items| == |Pending(s)| + 1
      && s'.items[..|Pending(s)|] == Pending(s)
      && s'.items[|Pending(s)|].uri == uri
      && s'.items[|Pending(s)|].timestamp == now
  {
    match s
    case Corrupt => s
    case _ => if writeOk then Saved(Pending(s) + [QueueItem(uri, now)]) else s
  }

  // ---------------------------------------------------------------- size

  /** The number of queued items; 0 when the record is missing or cannot be parsed. */
  function Size(s: Store): (n: nat)
    ensures !s.Saved? ==> n == 0
    ensures s.Saved? ==> n == |s.items|
  {
    |Pending(s)|
  }

  /** A successful append grows the reported size by exactly one, starting from 0 on a missing record. */
  lemma EnqueueGrowsSize(s: Store, uri: Uri, now: int)
    requires !s.Corrupt?
    ensures Size(Enqueue(s, uri, now, true)) == Size(s) + 1
    ensures s.Missing? ==> Enqueue(s, uri, now, true) == Saved([QueueItem(uri, now)])
  {
  }

  // ---------------------------------------------------------------- drain

  /** Attempt k (counted from 0 within one drain) succeeds: the file read and the remote call both resolved. */
  predicate Succeeds(outcomes: seq<bool>, k: nat) {
    k < |outcomes| && outcomes[k]
  }

  /** Dropping the first outcome shifts every later attempt down by one. */
  lemma SucceedsTail(outcomes: seq<bool>)
    requires |outcomes| > 0
    ensures forall i: nat :: Succeeds(outcomes[1..], i) == Succeeds(outcomes, i + 1)
  {
  }

  /** What the upload loop did: the items it attempted, in order, and the uris it uploaded. */
  datatype Walk = Walk(attempted: seq<QueueItem>, processed: seq<Uri>)

  /** The upload loop over a snapshot: try each item in order, record its uri on
      success, stop right after the first failure. */
  function WalkQueue(q: seq<QueueItem>, outcomes: seq<bool>): (w: Walk)
    ensures |w.processed| <= |w.attempted| <= |q|
    ensures w.attempted == q[..|w.attempted|]
    ensures forall i :: 0 <= i < |w.processed| ==> w.processed[i] == q[i].uri && Succeeds(outcomes, i)
    ensures |w.processed| < |q| ==> !Succeeds(outcomes, |w.processed|) && |w.attempted| == |w.processed| + 1
    ensures |w.processed| == |q| ==> |w.attempted| == |q|
  {
    if |q| == 0 then Walk([], [])
    else if !Succeeds(outcomes, 0) then Walk([q[0]], [])
    else
      var rest := WalkQueue(q[1..], outcomes[1..]);
      SucceedsTail(outcomes);
      Walk([q[0]] + rest.attempted, [q[0].uri] + rest.processed)
  }

  /** The write at the end of a drain. It filters the SNAPSHOT, not the record as it is now,
      and is issued only when something was uploaded; a failed write leaves `current`. */
  function Commit(snapshot: seq<QueueItem>, processed: seq<Uri>, writeOk: bool, current: Store): (s': Store)
    ensures |processed| == 0 || !writeOk ==> s' == current
    ensures |processed| > 0 && writeOk ==> s'.Saved? && IsSubsequence(s'.items, snapshot)
    ensures |processed| > 0 && writeOk ==>
      forall i :: 0 <= i < |snapshot| ==> (snapshot[i] in s'.items <==> snapshot[i].uri !in processed)
    ensures |processed| > 0 && writeOk ==>
      forall x :: multiset(s'.items)[x] == if x.uri in processed then 0 else multiset(snapshot)[x]
  {
    if |processed| > 0 && writeOk then
      RemainingIsSubsequence(snapshot, processed);
      RemainingCounts(snapshot, processed);
      Saved(Remaining(snapshot, processed))
    else current
  }

  /** The observable effect of one drain: the uris whose upload was attempted (file read
      plus remote call), in order,
      the uris that were uploaded, whether the final write was issued, and the record afterwards. */
  datatype DrainResult = DrainResult(attempted: seq<Uri>, uploaded: seq<Uri>, writeIssued: bool, store: Store)

  /** One run of the drain against the record `s`. */
  function Drain(s: Store, outcomes: seq<bool>, writeOk: bool): (r: DrainResult)
    ensures |Pending(s)| == 0 ==> r.attempted == [] && !r.writeIssued && r.store == s
    ensures r.writeIssued <==> |r.uploaded| > 0
    ensures !r.writeIssued || !writeOk ==> r.store == s
    ensures r.writeIssued && writeOk ==> r.store == Saved(Remaining(s.items, r.uploaded))
    ensures |r.uploaded| <= |r.attempted| <= |Pending(s)|
    ensures r.attempted == Uris(Pending(s))[..|r.attempted|]
    ensures r.uploaded == r.attempted[..|r.uploaded|]
    ensures forall i :: 0 <= i < |r.uploaded| ==> Succeeds(outcomes, i)
    ensures |r.uploaded| < |Pending(s)| ==> !Succeeds(outcomes, |r.uploaded|) && |r.attempted| == |r.uploaded| + 1
    ensures |r.uploaded| == |Pending(s)| ==> r.attempted == Uris(Pending(s))
  {
    var q := Pending(s);
    var w := WalkQueue(q, outcomes);
    assert Uris(w.attempted) == Uris(q)[..|w.attempted|];
    DrainResult(Uris(w.attempted), w.processed, |w.processed| > 0, Commit(q, w.processed, writeOk, s))
  }
}

=== FILE: queue_item.dfy ===
/** The record kept in the offline upload queue, and facts about sequences of them. */
module QueueItems {

  /** A local file location of a captured receipt image. */
  type Uri = string

  /** One pending upload: the image file to send and the clock reading (milliseconds) taken when it was queued. */
  datatype QueueItem = QueueItem(uri: Uri, timestamp: int)

  /** The uris of a queue, position by position. */
  function Uris(q: seq<QueueItem>): (us: seq<Uri>)
    ensures |us| == |q|
    ensures forall i :: 0 <= i < |q| ==> us[i] == q[i].uri
  {
    seq(|q|, i requires 0 <= i < |q| => q[i].uri)
  }

  /** No two entries of the queue name the same file. */
  predicate DistinctUris(q: seq<QueueItem>) {
    forall i, j :: 0 <= i < j < |q| ==> q[i].uri != q[j].uri
  }

  /** `a` can be obtained from `b` by deleting entries, keeping the order of the rest. */
  predicate IsSubsequence<T(==)>(a: seq<T>, b: seq<T>)
    decreases |b|
  {
    if |a| == 0 then true
    else if |b| == 0 then false
    else if a[0] == b[0] then IsSubsequence(a[1..], b[1..])
    else IsSubsequence(a, b[1..])
  }
}

=== FILE: removal.dfy ===
/** Removing uploaded entries from a queue by uri value. */
module Removal {
  import opened QueueItems

  /** The entries of `q` whose uri is not among `processed`, in queue order:
      the filter applied to the snapshot after a drain. */
  function Remaining(q: seq<QueueItem>, processed: seq<Uri>): (r: seq<QueueItem>)
    ensures |r| <= |q|
    ensures forall x :: x in r ==> x in q && x.uri !in processed
    ensures forall i :: 0 <= i < |q| && q[i].uri !in processed ==> q[i] in r
  {
    if |q| == 0 then []
    else (if q[0].uri in processed then [] else [q[0]]) + Remaining(q[1..], processed)
  }

  /** The filter keeps every occurrence of a surviving item: an item occurs in the result
      exactly as often as in the queue when its uri was not processed, and not at all otherwise. */
  lemma {:induction false} RemainingCounts(q: seq<QueueItem>, processed: seq<Uri>)
    ensures forall x :: multiset(Remaining(q, processed))[x] == if x.uri in processed then 0 else multiset(q)[x]
  {
    if |q| > 0 {
      RemainingCounts(q[1..], processed);
      assert q == [q[0]] + q[1..];
    }
  }

  /** The filter keeps the survivors in their original relative order. */
  lemma {:induction false} RemainingIsSubsequence(q: seq<QueueItem>, processed: seq<Uri>)
    ensures IsSubsequence(Remaining(q, processed), q)
  {
    if |q| > 0 {
      RemainingIsSubsequence(q[1..], processed);
      var r := Remaining(q, processed);
      if q[0].uri in processed {
        assert r == Remaining(q[1..], processed);
        SubsequenceOfTail(r, q);
      } else {
        assert r == [q[0]] + Remaining(q[1..], processed);
        assert r[1..] == Remaining(q[1..], processed);
      }
    }
  }

  /** A subsequence of a queue's tail is a subsequence of the whole queue. */
  lemma {:induction false} SubsequenceOfTail<T>(a: seq<T>, b: seq<T>)
    requires |b| > 0
    requires IsSubsequence(a, b[1..])
    ensures IsSubsequence(a, b)
    decreases |b|, 0
  {
    if |a| > 0 && a[0] == b[0] {
      // `a` matches the head of `b`; its tail is still inside `b[1..]`.
      TailOfSubsequence(a, b[1..]);
    }
  }

  /** Dropping the head of a subsequence keeps it a subsequence. */
  lemma {:induction false} TailOfSubsequence<T>(a: seq<T>, b: seq<T>)
    requires |a| > 0
    requires IsSubsequence(a, b)
    ensures IsSubsequence(a[1..], b)
    decreases |b|, 1
  {
    assert |b| > 0;
    if a[0] != b[0] {
      TailOfSubsequence(a, b[1..]);
      SubsequenceOfTail(a[1..], b);
    } else {
      SubsequenceOfTail(a[1..], b);
    }
  }

  /** Filtering a concatenation filters each part. */
  lemma {:induction false} RemainingAppend(a: seq<QueueItem>, b: seq<QueueItem>, processed: seq<Uri>)
    ensures Remaining(a + b, processed) == Remaining(a, processed) + Remaining(b, processed)
  {
    if |a| > 0 {
      assert (a + b)[1..] == a[1..] + b;
      RemainingAppend(a[1..], b, processed);
    } else {
      assert a + b == b;
    }
  }

  /** A queue none of whose uris was processed is left untouched. */
  lemma {:induction false} RemainingNoneProcessed(q: seq<QueueItem>, processed: seq<Uri>)
    requires forall i :: 0 <= i < |q| ==> q[i].uri !in processed
    ensures Remaining(q, processed) == q
  {
    if |q| > 0 {
      RemainingNoneProcessed(q[1..], processed);
      assert [q[0]] + q[1..] == q;
    }
  }

  /** A queue all of whose uris were processed is removed entirely. */
  lemma RemainingAllProcessed(q: seq<QueueItem>, processed: seq<Uri>)
    requires forall i :: 0 <= i < |q| ==> q[i].uri in processed
    ensures Remaining(q, processed) == []
  {
  }

  /** With distinct uris, a later item's uri is not among the uris of an earlier prefix. */
  lemma DistinctUriNotInPrefix(q: seq<QueueItem>, k: nat, j: nat)
    requires DistinctUris(q)
    requires k <= j < |q|
    ensures q[j].uri !in Uris(q[..k])
  {
  }

  /** Filtering a queue filters its two halves at any split point. */
  lemma RemainingSplitAt(q: seq<QueueItem>, k: nat, processed: seq<Uri>)
    requires k <= |q|
    ensures Remaining(q, processed) == Remaining(q[..k], processed) + Remaining(q[k..], processed)
  {
    assert q == q[..k] + q[k..];
    RemainingAppend(q[..k], q[k..], processed);
  }

  /** With distinct uris, the items from position `k` on all survive removing the first `k` uris. */
  lemma RemainingDistinctTail(q: seq<QueueItem>, k: nat)
    requires DistinctUris(q)
    requires k <= |q|
    ensures Remaining(q[k..], Uris(q[..k])) == q[k..]
  {
    var tail := q[k..];
    forall j | 0 <= j < |tail| ensures tail[j].uri !in Uris(q[..k]) {
      DistinctUriNotInPrefix(q, k, k + j);
    }
    RemainingNoneProcessed(tail, Uris(q[..k]));
  }

  /** With distinct uris, removing the uris of the first `k` items leaves exactly the rest. */
  lemma RemainingDistinctPrefix(q: seq<QueueItem>, k: nat)
    requires DistinctUris(q)
    requires k <= |q|
    ensures Remaining(q, Uris(q[..k])) == q[k..]
  {
    var processed := Uris(q[..k]);
    var head, tail := Remaining(q[..k], processed), Remaining(q[k..], processed);
    RemainingSplitAt(q, k, processed);
    RemainingAllProcessed(q[..k], processed);
    RemainingDistinctTail(q, k);
    assert head == [] && tail == q[k..];
    assert head + tail == q[k..];
  }
}
